=== FILE: README.md ===
# Damage-inspection report form: the form-state model

The program is a single-page form with which a civil-defence engineer fills in a
post-event damage inspection report (a *laudo*): municipality, engineer, location,
owner and requester, building typology, a list of damage categories each with notes
and photos, and a four-level damage classification from which a destruction level and
percentage are derived. The report is then laid out on a letterhead page and exported
as a PDF.

This Dafny project models the report's state and the pure logic the form applies to it:

- `Types` (types.dfy): the two string enumerations (typology, classification) with their
  display strings and the drop-downs' cast from string back to the enumeration; the
  engineer, damage-entry and report records.
- `Text` (text.dfy): the JavaScript string operations the page relies on, `String(n)`
  for integral numbers, `padStart` and `a || b` on strings, with a digit-string reader as
  reference.
- `Derivation` (derivation.dfy): classification to (level label, percentage), and the
  effect that writes exactly those two fields back.
- `Danos` (danos.dfy): the damage list keyed by category: toggle, description edit,
  photo batch append, photo removal by index, and the keyed view (`Lookup`) under which
  each of them is a point update.
- `Template` (template.dfy): the text content of the printed page: control number,
  per-entry fallback text, the "no damage recorded" notice, and the whole page.
- `FormState` (form.dfy): the report as first created, the user actions as one datatype,
  and the invariant every reachable state keeps.

Photos are opaque strings. The asynchronous photo encoding is modelled as its result: a
sequence of already-encoded strings merged into the current state in one step, exactly
like the functional state update the program performs once all encodings have finished.
Fields that the program leaves `undefined` until the user types in them are `""` here;
every reader in the program treats the two alike (`||` and template interpolation).

Notes on the program's behaviour, as the model states it:

- The control line is `CONTROLE Nº 0007 - ANO <year>`, not `0007-<year>`.
- The printed page shows the classification and the derived level but not the derived
  percentage, not the requester, and no photos (`PrintedConclusion`, `PhotosNotPrinted`).
- The derivation is a React effect that runs after the render that changed the
  classification, so the very first state has empty derived fields (`Initial` is not
  consistent; `Mount` is). Later changes are modelled as the change followed by its
  effect in one step (`SelectClassificacao`).
- The report's id is taken from the stored counter once, when the form is created. The
  export advances only the stored counter, so a second export in the same session prints
  the same control number (`Step` never changes the id).

## Model

| member | source | states |
|---|---|---|
| Types.TipologiaFromDisplay | App.tsx:213 | casting a selected string yields typology `t` exactly when `t`'s display string is that string |
| Types.ClassificacaoFromDisplay | App.tsx:272-273 | casting a selected string yields classification `c` exactly when `c`'s display string is that string |
| Types.TipologiasEnumerated | types.ts:2-12 | nine typologies, every one listed, with pairwise distinct display strings |
| Types.ClassificacoesEnumerated | types.ts:14-19 | four classifications, every one listed in severity order, with pairwise distinct display strings |
| Types.DisplayRoundTrip | types.ts:2-19 | each enumeration value survives the round trip through its display string |
| Text.Decimal | App.tsx:330 | `String(n)` of a non-negative integer is a non-empty digit string with no leading zero |
| Text.IntToString | App.tsx:330 | `String(i)` of an integer is digits for non-negative values and a minus sign followed by digits for negative ones |
| Text.DecimalRoundTrip | App.tsx:330 | the decimal rendering of a non-negative id reads back as that id |
| Text.IntToStringInjective | App.tsx:330 | distinct integers render as distinct strings |
| Text.PadStart | App.tsx:330 | the padded string has length max(width, length), ends with the original and is padding before it |
| Text.OrElse | App.tsx:337 | the fallback replaces exactly the empty string |
| Derivation.Percent | App.tsx:116-119 | each classification stands for a share in (0, 100], and only ruin stands for 100 |
| Derivation.Derive | App.tsx:113-120 | the derivation is total, never yields an empty label, and its percentage text is the share in decimal followed by `%` |
| Derivation.ApplyDerivation | App.tsx:121 | after the effect the derived fields agree with the classification and every other field is unchanged |
| Derivation.SelectClassificacao | App.tsx:112-122 | choosing a classification in the drop-down (App.tsx:272-273) sets it, makes the derived fields agree, and touches nothing else |
| Derivation.DeriveTable | App.tsx:116-119 | the four (label, percentage) pairs, e.g. Danos Severos gives "Destruição Parcial Grave" and "70%" |
| Derivation.DeriveInjective | App.tsx:116-119 | distinct classifications get distinct labels and distinct percentages |
| Derivation.PercentMonotone | App.tsx:116-119 | the percentage grows strictly with severity |
| Derivation.ApplyDerivationIdempotent | App.tsx:121 | the effect on a consistent report is a no-op; applying it twice equals applying it once |
| Danos.FindIndex | App.tsx:227 | the result is the first position whose category matches, or -1 exactly when none does |
| Danos.Lookup | App.tsx:233 | finds an entry of the category exactly when one exists |
| Danos.Toggle | App.tsx:224-231 | an absent category is appended as an empty entry after the unchanged list; a present one has its first entry removed, the rest kept in order |
| Danos.UpdateWhere | App.tsx:100 | the shared rewrite helper behind the three entry edits: no matching entry leaves the list unchanged, and a category-preserving edit keeps every position's category |
| Danos.SetDescricao | App.tsx:246 | only matching entries get the new description; categories, photos and other entries are unchanged |
| Danos.AddFotos | App.tsx:98-101 | matching entries' photos become the old photos followed by the batch in order; categories and descriptions unchanged; no match leaves the list unchanged |
| Danos.DropIndex | App.tsx:108 | filtering out one position removes exactly that element (later ones shift down); an out-of-range index keeps everything |
| Danos.RemoveFoto | App.tsx:105-110 | the matching entry loses exactly the photo at the index, later photos shift down by one; out-of-range indices and other entries are untouched |
| Danos.ToggleRemovesCategory | App.tsx:227-228 | with unique categories, toggling a present category equals filtering it out |
| Danos.ToggleKeepsUnique | App.tsx:226-230 | toggling keeps at most one entry per category and flips exactly the toggled category's membership |
| Danos.ToggleLookup | App.tsx:226-230 | seen by key, toggling deletes the entry or adds a fresh empty one, and every other category keeps its entry |
| Danos.ToggleAbsentTwice | App.tsx:226-230 | selecting then deselecting an absent category restores the list exactly |
| Danos.TogglePresentTwice | App.tsx:226-230 | deselecting then reselecting moves the category to the end with its description and photos lost |
| Danos.UpdateWhereLookup | App.tsx:100 | rewriting matching entries with a key-preserving edit is a point update of the keyed view |
| Danos.SetDescricaoLookup | App.tsx:246 | seen by key, a description edit changes only the matching entry's description |
| Danos.SetDescricaoLastWins | App.tsx:246 | the latest description edit overrides earlier ones |
| Danos.AddFotosLookup | App.tsx:98-101 | seen by key, adding photos extends only the matching entry's photos |
| Danos.AddFotosBatches | App.tsx:100 | two batches in sequence equal one batch holding both in order |
| Danos.AddNoFotos | App.tsx:100 | an empty batch leaves the list unchanged |
| Danos.RemoveFotoLookup | App.tsx:105-110 | seen by key, removing a photo changes only the matching entry's photos |
| Danos.AddThenRemoveFoto | App.tsx:98-110 | removing the photo at the old photo count right after adding it restores the list |
| Danos.EditsCommute | App.tsx:98-110 | description edits and photo edits commute, whatever categories they name |
| Danos.WithoutUnique | App.tsx:228 | removing a category keeps the others unique and removes exactly that key |
| Template.ControlNumber | App.tsx:330 | the control number is the id's decimal rendering preceded by enough '0's to reach four characters |
| Template.ControlLine | App.tsx:330 | the control line starts with the fixed prefix followed by the control number |
| Template.ControlLineYear | App.tsx:330 | after the prefix and control number the line reads ` - ANO ` followed by the year |
| Template.ControlLineExample | App.tsx:330 | id 7 in 2025 prints as `CONTROLE Nº 0007 - ANO 2025` |
| Template.ControlNumberRoundTrip | App.tsx:330 | the control number of a non-negative id is all digits and reads back as the id |
| Template.ControlNumberWidth | App.tsx:330 | ids below 10000 print as four characters; ids of four or more digits print unpadded |
| Template.ControlNumberInjective | App.tsx:330 | distinct ids never share a control number |
| Template.ControlNumberSeven | App.tsx:330 | id 7 prints as 0007 and id 12345 as 12345 |
| Template.DescricaoText | App.tsx:355 | an entry's printed text is its description, or the fixed placeholder when it is empty, never empty |
| Template.AvariaBlocks | App.tsx:352-358 | one block per entry in list order with its category and text; the single notice exactly when the list is empty |
| Template.AvariaBlocksShape | App.tsx:352-358 | the damage section is never empty, shows the notice iff there are no entries, and every block has text |
| Template.Compose | App.tsx:330-370 | the page carries the control line, the municipality, date, typology label, `latitude, longitude` and address as recorded; owner and registration print as recorded, or N/A exactly when unset; the damage section is the per-entry blocks or the notice; classification, derived level and signature as recorded |
| Template.PhotosNotPrinted | App.tsx:352-357 | adding or removing photos never changes the printed page |
| Template.PrintedConclusion | App.tsx:361-366 | the page prints the derived level, and neither the percentage nor the requester affects it |
| FormState.SetCampo | App.tsx:180-212 | assigning a text field sets it and changes no other field |
| FormState.Step | App.tsx:180-273 | each action writes only its own fields: a toggle or entry edit only the damage list (the toggle as `Toggle`), a typology choice only the typology, a field edit only that field, a map click only the two coordinates, a classification only the classification and its derived fields; no action changes the id or date |
| FormState.Run | App.tsx:180-273 | a whole session keeps the id and date, and without classification actions keeps the derived fields |
| FormState.Initial | App.tsx:26-37 | the fresh report has the counter's id, the given date, the default municipality, engineer and typology, no damage, empty coordinates and address, minimal classification; owner, registration, requester, other-typology text and derived fields unset, so not yet consistent |
| FormState.Mount | App.tsx:112-122 | the effect's first run makes the derived fields consistent and writes no other field |
| FormState.MountedInitialWellFormed | App.tsx:26-37 | after mounting, the fresh report satisfies the invariant with "Sem Destruição" / "10%" |
| FormState.StepPreservesWellFormed | App.tsx:180-273 | every action keeps derived fields consistent, categories unique and coordinates paired |
| FormState.RunPreservesWellFormed | App.tsx:180-273 | every session of actions keeps the invariant |

## Left out

- Map widget setup, marker handling and click wiring (App.tsx:47-73): user-interface plumbing over a third-party widget.
- Reverse geocoding (App.tsx:75-85): network I/O and parsing of untyped external data; its outcome enters the model as an ordinary address assignment (`Preencher(Endereco, …)`).
- Coordinate formatting with `toFixed(6)` (App.tsx:74): floating point; formatted coordinates enter as non-empty strings (`MarcarLocal`).
- File reading and base64 encoding (App.tsx:90-97): asynchronous browser I/O; its result is the photo batch given to `AddFotos`.
- The PDF export (App.tsx:124-155): timers, rasterisation, PDF packaging, opening a window and incrementing the persisted counter are foreign library calls and storage I/O. The program has no in-flight guard inside the export itself; only the button is disabled while it runs.
- Local storage of the counter and the engineer roster, with their parsing and seed list (App.tsx:8-21, 149, 309): storage I/O.
- Adding an engineer in the modal (App.tsx:306-312): an unvalidated append to the roster with nothing to state beyond the append.
- Dates from the clock and locale (App.tsx:28, 330): the date string and the year are parameters.
- Page layout, styling and images of the template; only its text content is modelled.
- Template.ControlNumber: ids that are not integers (the program's `number` could be NaN after a corrupted stored counter) are not modelled; the model's id is an unbounded integer. JavaScript numbers switch `String(n)` to exponent notation from 1e21 and are inexact above 2^53, so `ControlNumberInjective` holds for the model's integers, not for such ids.
- Template.Compose: `tipologiaOutro` is never set by the form and is not printed, so the model carries it without using it. The page's CSS `uppercase` shows the damage headings, classification and signature in capitals (App.tsx:354, 364, 369); the model gives the text before that styling.
- Derivation.Derive: the program's switch falls back to empty strings for a value outside the enumeration; with the typed enumeration that case cannot arise and is not modelled.

=== FILE: danos.dfy ===
/**
 The damage list of a report: an ordered sequence of entries in which `tipo` (the damage
 category) acts as the key. The form toggles a category in or out, edits one entry's
 description, appends a batch of already-encoded photos to one entry, and removes the
 photo at an index. The three edits rewrite every entry whose `tipo` matches and copy
 the others; the toggle finds the first match and removes it, or appends a fresh entry.
 */
module Danos {
  import opened Types

  type Danos = seq<DanoSelecionado>

  /** Some entry has category `tipo`. */
  predicate Has(danos: Danos, tipo: string) {
    exists i :: 0 <= i < |danos| && danos[i].tipo == tipo
  }

  /** The categories present in the list. */
  function Tipos(danos: Danos): set<string> {
    set i | 0 <= i < |danos| :: danos[i].tipo
  }

  /** At most one entry per category. */
  predicate UniqueTipos(danos: Danos) {
    forall i, j :: 0 <= i < j < |danos| ==> danos[i].tipo != danos[j].tipo
  }

  /** The entry a newly selected category starts as: no description, no photos. */
  function NewDano(tipo: string): DanoSelecionado {
    DanoSelecionado(tipo, "", [])
  }

  /** `findIndex` by category: the first matching position, or -1 when none matches. */
  function FindIndex(danos: Danos, tipo: string): (r: int)
    ensures -1 <= r < |danos|
    ensures r == -1 <==> !Has(danos, tipo)
    ensures r >= 0 ==> danos[r].tipo == tipo
    ensures r >= 0 ==> forall j :: 0 <= j < r ==> danos[j].tipo != tipo
  {
    if |danos| == 0 then -1
    else if danos[0].tipo == tipo then 0
    else
      var k := FindIndex(danos[1..], tipo);
      if k == -1 then -1 else k + 1
  }

  /** The matching entry, when there is one. */
  function Lookup(danos: Danos, tipo: string): (r: Option<DanoSelecionado>)
    ensures r.None? <==> !Has(danos, tipo)
    ensures r.Some? ==> r.value in danos && r.value.tipo == tipo
  {
    var i := FindIndex(danos, tipo);
    if i == -1 then None else Some(danos[i])
  }

  /**
   Pressing a category's button: remove the first entry of that category, dropping its
   description and photos, or append a fresh entry for it at the end.
   */
  function Toggle(danos: Danos, tipo: string): (r: Danos)
    ensures !Has(danos, tipo) ==> r == danos + [NewDano(tipo)]
    ensures Has(danos, tipo) ==> |r| == |danos| - 1
    ensures Has(danos, tipo) ==>
      var first := FindIndex(danos, tipo);
      r == danos[..first] + danos[first + 1..]
  {
    var i := FindIndex(danos, tipo);
    if i > -1 then danos[..i] + danos[i + 1..] else danos + [NewDano(tipo)]
  }

  /** Every entry whose category is not `tipo`, in their original order. */
  function Without(danos: Danos, tipo: string): (r: Danos)
    ensures !Has(r, tipo)
  {
    if |danos| == 0 then []
    else if danos[0].tipo == tipo then Without(danos[1..], tipo)
    else [danos[0]] + Without(danos[1..], tipo)
  }

  /** Rewrite each entry of category `tipo` with `f`; copy the others. */
  function UpdateWhere(danos: Danos, tipo: string, f: DanoSelecionado -> DanoSelecionado): (r: Danos)
    ensures |r| == |danos|
    ensures forall i :: 0 <= i < |danos| ==>
      r[i] == if danos[i].tipo == tipo then f(danos[i]) else danos[i]
    ensures !Has(danos, tipo) ==> r == danos
    ensures (forall d: DanoSelecionado :: f(d).tipo == d.tipo) ==> SameTipos(r, danos)
  {
    seq(|danos|, i requires 0 <= i < |danos| =>
      if danos[i].tipo == tipo then f(danos[i]) else danos[i])
  }

  /** Typing in a category's text box: that entry's description becomes `text`. */
  function SetDescricao(danos: Danos, tipo: string, text: string): (r: Danos)
    ensures |r| == |danos|
    ensures forall i :: 0 <= i < |danos| ==>
      r[i].tipo == danos[i].tipo && r[i].fotos == danos[i].fotos
    ensures forall i :: 0 <= i < |danos| ==>
      r[i].descricao == if danos[i].tipo == tipo then text else danos[i].descricao
  {
    UpdateWhere(danos, tipo, (d: DanoSelecionado) => d.(descricao := text))
  }

  /**
   The merge step after a batch of photos has been encoded: the batch goes after the
   entry's existing photos, in the order given. With no matching entry (the category was
   deselected meanwhile) the batch is dropped.
   */
  function AddFotos(danos: Danos, tipo: string, novas: seq<string>): (r: Danos)
    ensures |r| == |danos|
    ensures forall i :: 0 <= i < |danos| ==>
      r[i].tipo == danos[i].tipo && r[i].descricao == danos[i].descricao
    ensures forall i :: 0 <= i < |danos| ==>
      r[i].fotos == if danos[i].tipo == tipo then danos[i].fotos + novas else danos[i].fotos
    ensures !Has(danos, tipo) ==> r == danos
  {
    UpdateWhere(danos, tipo, (d: DanoSelecionado) => d.(fotos := d.fotos + novas))
  }

  /**
   `filter((_, i) => i !== index)` on a sequence: keep every element whose position is
   not `index`. An index outside the sequence keeps everything.
   */
  function DropIndex<T>(s: seq<T>, index: int): (r: seq<T>)
    ensures 0 <= index < |s| ==> r == s[..index] + s[index + 1..]
    ensures !(0 <= index < |s|) ==> r == s
  {
    if |s| == 0 then []
    else (if index == 0 then [] else [s[0]]) + DropIndex(s[1..], index - 1)
  }

  /** The photo's delete button: drop the photo at `index` of the matching entry. */
  function RemoveFoto(danos: Danos, tipo: string, index: int): (r: Danos)
    ensures |r| == |danos|
    ensures forall i :: 0 <= i < |danos| ==>
      r[i].tipo == danos[i].tipo && r[i].descricao == danos[i].descricao
    ensures forall i :: 0 <= i < |danos| && danos[i].tipo != tipo ==> r[i] == danos[i]
    ensures forall i :: 0 <= i < |danos| && danos[i].tipo == tipo && 0 <= index < |danos[i].fotos| ==>
      |r[i].fotos| == |danos[i].fotos| - 1
      && (forall j :: 0 <= j < index ==> r[i].fotos[j] == danos[i].fotos[j])
      && (forall j :: index <= j < |r[i].fotos| ==> r[i].fotos[j] == danos[i].fotos[j + 1])
    ensures forall i :: 0 <= i < |danos| && !(0 <= index < |danos[i].fotos|) ==> r[i] == danos[i]
  {
    UpdateWhere(danos, tipo, (d: DanoSelecionado) => d.(fotos := DropIndex(d.fotos, index)))
  }

  // ---------------------------------------------------------------------------
  // The list as a keyed collection
  // ---------------------------------------------------------------------------

  lemma HasIffInTipos(danos: Danos, tipo: string)
    ensures Has(danos, tipo) <==> tipo in Tipos(danos)
  {
    if Has(danos, tipo) {
      var i :| 0 <= i < |danos| && danos[i].tipo == tipo;
      assert danos[i].tipo in Tipos(danos);
    }
  }

  /** Under unique categories, looking up an entry's category finds that very entry. */
  lemma LookupAt(danos: Danos, i: int)
    requires UniqueTipos(danos)
    requires 0 <= i < |danos|
    ensures Lookup(danos, danos[i].tipo) == Some(danos[i])
  {
  }

  lemma LookupCons(x: DanoSelecionado, s: Danos, tipo: string)
    ensures Lookup([x] + s, tipo) == if x.tipo == tipo then Some(x) else Lookup(s, tipo)
  {
    assert ([x] + s)[0] == x;
    assert ([x] + s)[1..] == s;
  }

  lemma LookupSnoc(s: Danos, x: DanoSelecionado, tipo: string)
    ensures Lookup(s + [x], tipo) ==
      if Has(s, tipo) then Lookup(s, tipo) else if x.tipo == tipo then Some(x) else None
  {
    if Has(s, tipo) {
      var m := FindIndex(s, tipo);
      assert (s + [x])[m] == s[m];
    } else if x.tipo == tipo {
      assert (s + [x])[|s|] == x;
    }
  }

  /** Two lists with the same categories position by position. */
  predicate SameTipos(a: Danos, b: Danos) {
    |a| == |b| && forall i :: 0 <= i < |a| ==> a[i].tipo == b[i].tipo
  }

  /** Lists with the same categories in the same positions have the same keys and find them at the same place. */
  lemma SameTiposKeys(a: Danos, b: Danos, tipo: string)
    requires SameTipos(a, b)
    ensures Tipos(a) == Tipos(b)
    ensures UniqueTipos(a) <==> UniqueTipos(b)
    ensures Has(a, tipo) <==> Has(b, tipo)
    ensures FindIndex(a, tipo) == FindIndex(b, tipo)
  {
    if Has(a, tipo) {
      var i :| 0 <= i < |a| && a[i].tipo == tipo;
      assert b[i].tipo == tipo;
    }
    if Has(b, tipo) {
      var i :| 0 <= i < |b| && b[i].tipo == tipo;
      assert a[i].tipo == tipo;
    }
    forall t | t in Tipos(a) ensures t in Tipos(b) {
      var i :| 0 <= i < |a| && a[i].tipo == t;
      assert b[i].tipo == t;
    }
    forall t | t in Tipos(b) ensures t in Tipos(a) {
      var i :| 0 <= i < |b| && b[i].tipo == t;
      assert a[i].tipo == t;
    }
  }

  /** Rewriting the entries of one category with a key-preserving `f` is, seen by key, a point update. */
  lemma {:induction false} UpdateWhereLookup(danos: Danos, tipo: string, f: DanoSelecionado -> DanoSelecionado, t: string)
    requires forall d: DanoSelecionado :: f(d).tipo == d.tipo
    ensures SameTipos(UpdateWhere(danos, tipo, f), danos)
    ensures Lookup(UpdateWhere(danos, tipo, f), t) ==
      match Lookup(danos, t)
      case None => None
      case Some(e) => Some(if t == tipo then f(e) else e)
  {
    var r := UpdateWhere(danos, tipo, f);
    assert SameTipos(r, danos) by {
      forall i | 0 <= i < |danos| ensures r[i].tipo == danos[i].tipo {
        assert r[i] == if danos[i].tipo == tipo then f(danos[i]) else danos[i];
      }
    }
    SameTiposKeys(r, danos, t);
  }

  // ---------------------------------------------------------------------------
  // Toggle
  // ---------------------------------------------------------------------------

  /** With unique categories, removing a present category by toggling removes every entry of it. */
  lemma {:induction false} ToggleRemovesCategory(danos: Danos, tipo: string)
    requires UniqueTipos(danos)
    requires Has(danos, tipo)
    ensures Toggle(danos, tipo) == Without(danos, tipo)
  {
    var rest := danos[1..];
    if danos[0].tipo == tipo {
      ToggleHead(danos, tipo);
      assert !Has(rest, tipo) by {
        forall i | 0 <= i < |rest| ensures rest[i].tipo != tipo {
          assert rest[i] == danos[i + 1];
        }
      }
      WithoutAbsent(rest, tipo);
    } else {
      UniqueTail(danos);
      ToggleTail(danos, tipo);
      ToggleRemovesCategory(rest, tipo);
    }
  }

  /** Toggling the category of the first entry removes that entry. */
  lemma ToggleHead(danos: Danos, tipo: string)
    requires |danos| > 0 && danos[0].tipo == tipo
    ensures Toggle(danos, tipo) == danos[1..]
  {
    assert FindIndex(danos, tipo) == 0;
  }

  /** Toggling a category the first entry does not have toggles it in the rest of the list. */
  lemma ToggleTail(danos: Danos, tipo: string)
    requires |danos| > 0 && danos[0].tipo != tipo
    requires Has(danos, tipo)
    ensures Has(danos[1..], tipo)
    ensures Toggle(danos, tipo) == [danos[0]] + Toggle(danos[1..], tipo)
  {
    var rest := danos[1..];
    var k := FindIndex(rest, tipo);
    assert FindIndex(danos, tipo) == k + 1;
    var x, p, q := danos[0], rest[..k], rest[k + 1..];
    calc {
      Toggle(danos, tipo);
      danos[..k + 1] + danos[k + 2..];
      { assert danos[..k + 1] == [x] + p; assert danos[k + 2..] == q; }
      ([x] + p) + q;
      [x] + (p + q);
      [x] + Toggle(rest, tipo);
    }
  }

  lemma UniqueTail(danos: Danos)
    requires |danos| > 0
    requires UniqueTipos(danos)
    ensures UniqueTipos(danos[1..])
  {
    var rest := danos[1..];
    forall i, j | 0 <= i < j < |rest| ensures rest[i].tipo != rest[j].tipo {
      assert rest[i] == danos[i + 1] && rest[j] == danos[j + 1];
    }
  }

  /** Filtering out a category that is absent changes nothing. */
  lemma {:induction false} WithoutAbsent(danos: Danos, tipo: string)
    requires !Has(danos, tipo)
    ensures Without(danos, tipo) == danos
  {
    if |danos| > 0 {
      WithoutAbsent(danos[1..], tipo);
      assert danos == [danos[0]] + danos[1..];
    }
  }

  /** Filtering out one category keeps every other category's lookup. */
  lemma {:induction false} WithoutLookup(danos: Danos, tipo: string, t: string)
    requires t != tipo
    ensures Lookup(Without(danos, tipo), t) == Lookup(danos, t)
  {
    if |danos| > 0 {
      WithoutLookup(danos[1..], tipo, t);
      assert danos == [danos[0]] + danos[1..];
      LookupCons(danos[0], danos[1..], t);
      if danos[0].tipo != tipo {
        LookupCons(danos[0], Without(danos[1..], tipo), t);
      }
    }
  }

  lemma TiposCons(x: DanoSelecionado, s: Danos)
    ensures Tipos([x] + s) == {x.tipo} + Tipos(s)
  {
    var r := [x] + s;
    assert r[0].tipo in Tipos(r);
    forall t | t in Tipos(r) ensures t in {x.tipo} + Tipos(s) {
      var i :| 0 <= i < |r| && r[i].tipo == t;
      if i > 0 {
        assert r[i] == s[i - 1];
      }
    }
    forall t | t in Tipos(s) ensures t in Tipos(r) {
      var i :| 0 <= i < |s| && s[i].tipo == t;
      assert r[i + 1] == s[i];
    }
  }

  /** Filtering keeps the entries' relative order, so it keeps categories unique. */
  lemma {:induction false} WithoutUnique(danos: Danos, tipo: string)
    requires UniqueTipos(danos)
    ensures UniqueTipos(Without(danos, tipo))
    ensures Tipos(Without(danos, tipo)) == Tipos(danos) - {tipo}
  {
    if |danos| > 0 {
      var rest := danos[1..];
      assert danos == [danos[0]] + rest;
      assert UniqueTipos(rest);
      WithoutUnique(rest, tipo);
      TiposCons(danos[0], rest);
      var w := Without(rest, tipo);
      assert danos[0].tipo !in Tipos(rest) by {
        forall i | 0 <= i < |rest| ensures rest[i].tipo != danos[0].tipo {
          assert rest[i] == danos[i + 1];
        }
      }
      if danos[0].tipo != tipo {
        var r := [danos[0]] + w;
        TiposCons(danos[0], w);
        forall i, j | 0 <= i < j < |r| ensures r[i].tipo != r[j].tipo {
          assert r[j] == w[j - 1];
          if i == 0 {
            assert w[j - 1].tipo in Tipos(w);
          } else {
            assert r[i] == w[i - 1];
          }
        }
      }
    }
  }

  /** Toggling keeps categories unique and flips exactly the toggled category's membership. */
  lemma ToggleKeepsUnique(danos: Danos, tipo: string)
    requires UniqueTipos(danos)
    ensures UniqueTipos(Toggle(danos, tipo))
    ensures Tipos(Toggle(danos, tipo)) ==
      if tipo in Tipos(danos) then Tipos(danos) - {tipo} else Tipos(danos) + {tipo}
  {
    HasIffInTipos(danos, tipo);
    if Has(danos, tipo) {
      ToggleRemovesCategory(danos, tipo);
      WithoutUnique(danos, tipo);
    } else {
      var r := danos + [NewDano(tipo)];
      forall i, j | 0 <= i < j < |r| ensures r[i].tipo != r[j].tipo {
        if j == |danos| {
          assert r[i] == danos[i];
        } else {
          assert r[i] == danos[i] && r[j] == danos[j];
        }
      }
      forall t | t in Tipos(r) ensures t in Tipos(danos) + {tipo} {
        var i :| 0 <= i < |r| && r[i].tipo == t;
        if i < |danos| { assert danos[i].tipo == t; }
      }
      forall t | t in Tipos(danos) ensures t in Tipos(r) {
        var i :| 0 <= i < |danos| && danos[i].tipo == t;
        assert r[i].tipo == t;
      }
      assert r[|danos|].tipo == tipo;
    }
  }

  /** Seen by key, toggling deletes the category's entry or adds a fresh one; other categories keep theirs. */
  lemma ToggleLookup(danos: Danos, tipo: string, t: string)
    requires UniqueTipos(danos)
    ensures Lookup(Toggle(danos, tipo), t) ==
      if t != tipo then Lookup(danos, t)
      else if Has(danos, tipo) then None
      else Some(NewDano(tipo))
  {
    if Has(danos, tipo) {
      ToggleRemovesCategory(danos, tipo);
      if t != tipo {
        WithoutLookup(danos, tipo, t);
      }
    } else {
      LookupSnoc(danos, NewDano(tipo), t);
    }
  }

  /** Selecting an absent category and deselecting it again restores the list exactly. */
  lemma ToggleAbsentTwice(danos: Danos, tipo: string)
    requires !Has(danos, tipo)
    ensures Toggle(Toggle(danos, tipo), tipo) == danos
  {
    var once := danos + [NewDano(tipo)];
    assert once[|danos|].tipo == tipo;
    assert once[..|danos|] == danos;
  }

  /**
   Deselecting a present category and selecting it again moves it to the end with an empty
   description and no photos: what was entered for it is gone.
   */
  lemma TogglePresentTwice(danos: Danos, tipo: string)
    requires UniqueTipos(danos)
    requires Has(danos, tipo)
    ensures Toggle(Toggle(danos, tipo), tipo) == Without(danos, tipo) + [NewDano(tipo)]
  {
    ToggleRemovesCategory(danos, tipo);
  }

  // ---------------------------------------------------------------------------
  // Edits of one entry
  // ---------------------------------------------------------------------------

  /** Seen by key, a description edit changes the matching entry's description and nothing else. */
  lemma SetDescricaoLookup(danos: Danos, tipo: string, text: string, t: string)
    ensures SameTipos(SetDescricao(danos, tipo, text), danos)
    ensures Lookup(SetDescricao(danos, tipo, text), t) ==
      match Lookup(danos, t)
      case None => None
      case Some(e) => Some(if t == tipo then e.(descricao := text) else e)
  {
    UpdateWhereLookup(danos, tipo, (d: DanoSelecionado) => d.(descricao := text), t);
  }

  /** The latest description wins. */
  lemma SetDescricaoLastWins(danos: Danos, tipo: string, a: string, b: string)
    ensures SetDescricao(SetDescricao(danos, tipo, a), tipo, b) == SetDescricao(danos, tipo, b)
  {
  }

  /** Seen by key, adding photos extends the matching entry's photos and nothing else. */
  lemma AddFotosLookup(danos: Danos, tipo: string, novas: seq<string>, t: string)
    ensures SameTipos(AddFotos(danos, tipo, novas), danos)
    ensures Lookup(AddFotos(danos, tipo, novas), t) ==
      match Lookup(danos, t)
      case None => None
      case Some(e) => Some(if t == tipo then e.(fotos := e.fotos + novas) else e)
  {
    UpdateWhereLookup(danos, tipo, (d: DanoSelecionado) => d.(fotos := d.fotos + novas), t);
  }

  /** Two batches added one after the other equal one batch holding both, in order. */
  lemma AddFotosBatches(danos: Danos, tipo: string, a: seq<string>, b: seq<string>)
    ensures AddFotos(AddFotos(danos, tipo, a), tipo, b) == AddFotos(danos, tipo, a + b)
  {
    var lhs, rhs := AddFotos(AddFotos(danos, tipo, a), tipo, b), AddFotos(danos, tipo, a + b);
    forall i | 0 <= i < |danos| ensures lhs[i] == rhs[i] {
      AddFotosBatchesAt(danos, tipo, a, b, i);
    }
    assert |lhs| == |rhs|;
  }

  /** The batches lemma at one position. */
  lemma AddFotosBatchesAt(danos: Danos, tipo: string, a: seq<string>, b: seq<string>, i: int)
    requires 0 <= i < |danos|
    ensures AddFotos(AddFotos(danos, tipo, a), tipo, b)[i] == AddFotos(danos, tipo, a + b)[i]
  {
    var mid := AddFotos(danos, tipo, a);
    AddFotosAt(danos, tipo, a, i);
    AddFotosAt(mid, tipo, b, i);
    AddFotosAt(danos, tipo, a + b, i);
    GrownTwice(danos[i], tipo, a, b);
  }

  /** An entry after a photo batch: the batch is appended when the category matches. */
  function Grown(d: DanoSelecionado, tipo: string, novas: seq<string>): DanoSelecionado {
    if d.tipo == tipo then d.(fotos := d.fotos + novas) else d
  }

  lemma GrownTwice(d: DanoSelecionado, tipo: string, a: seq<string>, b: seq<string>)
    ensures Grown(Grown(d, tipo, a), tipo, b) == Grown(d, tipo, a + b)
  {
    assert d.fotos + a + b == d.fotos + (a + b);
  }

  /** The entry at one position after adding photos. */
  lemma AddFotosAt(danos: Danos, tipo: string, novas: seq<string>, i: int)
    requires 0 <= i < |danos|
    ensures AddFotos(danos, tipo, novas)[i] == Grown(danos[i], tipo, novas)
  {
  }

  /** An empty batch changes nothing. */
  lemma AddNoFotos(danos: Danos, tipo: string)
    ensures AddFotos(danos, tipo, []) == danos
  {
    var r := AddFotos(danos, tipo, []);
    forall i | 0 <= i < |danos| ensures r[i] == danos[i] {
      assert danos[i].fotos + [] == danos[i].fotos;
    }
  }

  /** Seen by key, removing a photo touches only the matching entry's photos. */
  lemma RemoveFotoLookup(danos: Danos, tipo: string, index: int, t: string)
    ensures SameTipos(RemoveFoto(danos, tipo, index), danos)
    ensures Lookup(RemoveFoto(danos, tipo, index), t) ==
      match Lookup(danos, t)
      case None => None
      case Some(e) => Some(if t == tipo then e.(fotos := DropIndex(e.fotos, index)) else e)
  {
    UpdateWhereLookup(danos, tipo, (d: DanoSelecionado) => d.(fotos := DropIndex(d.fotos, index)), t);
  }

  /** With unique categories, removing the photo just added (at the old photo count) undoes the addition. */
  lemma AddThenRemoveFoto(danos: Danos, tipo: string, foto: string, e: DanoSelecionado)
    requires UniqueTipos(danos)
    requires Lookup(danos, tipo) == Some(e)
    ensures RemoveFoto(AddFotos(danos, tipo, [foto]), tipo, |e.fotos|) == danos
  {
    var added := AddFotos(danos, tipo, [foto]);
    var r := RemoveFoto(added, tipo, |e.fotos|);
    forall i | 0 <= i < |danos| ensures r[i] == danos[i] {
      if danos[i].tipo == tipo {
        LookupAt(danos, i);
        assert danos[i] == e;
        assert added[i].fotos == e.fotos + [foto];
        assert DropIndex(added[i].fotos, |e.fotos|) == e.fotos;
      }
    }
  }

  /** Edits of the description and of the photos never interfere, whatever categories they name. */
  lemma EditsCommute(danos: Danos, t1: string, novas: seq<string>, t2: string, text: string, index: int)
    ensures SetDescricao(AddFotos(danos, t1, novas), t2, text) == AddFotos(SetDescricao(danos, t2, text), t1, novas)
    ensures SetDescricao(RemoveFoto(danos, t1, index), t2, text) == RemoveFoto(SetDescricao(danos, t2, text), t1, index)
  {
  }
}

=== FILE: derivation.dfy ===
/**
 The severity derivation: each damage classification determines a destruction level
 label and a destruction percentage, and the report stores both next to the
 classification. The program re-runs the derivation whenever the classification changes
 and writes back only those two fields.
 */
module Derivation {
  import opened Types
  import opened Text

  /** The derived pair: destruction level label and destruction percentage text. */
  datatype Destruicao = Destruicao(nivel: string, percentual: string)

  /** The share of the building a classification stands for, as a whole percentage. */
  function Percent(c: ClassificacaoDanos): (p: nat)
    ensures 0 < p <= 100
    ensures p == 100 <==> c == Ruina
  {
    match c
    case Minimos => 10
    case Parciais => 40
    case Severos => 70
    case Ruina => 100
  }

  /** The level label and percentage text for a classification; total over the four cases. */
  function Derive(c: ClassificacaoDanos): (d: Destruicao)
    ensures d.nivel != ""
    ensures d.percentual == Decimal(Percent(c)) + "%"
  {
    match c
    case Minimos => Destruicao("Sem Destruição", "10%")
    case Parciais => Destruicao("Destruição Parcial Leve", "40%")
    case Severos => Destruicao("Destruição Parcial Grave", "70%")
    case Ruina => Destruicao("Destruição Total", "100%")
  }

  /** The report's derived fields agree with its classification. */
  predicate Consistent(l: Laudo) {
    Derive(l.classificacao) == Destruicao(l.nivelDestruicao, l.percentualDestruicao)
  }

  /** The classification effect: overwrite the two derived fields, keep every other field. */
  function ApplyDerivation(l: Laudo): (r: Laudo)
    ensures Consistent(r)
    ensures r.(nivelDestruicao := l.nivelDestruicao, percentualDestruicao := l.percentualDestruicao) == l
  {
    var d := Derive(l.classificacao);
    l.(nivelDestruicao := d.nivel, percentualDestruicao := d.percentual)
  }

  /** Choosing a classification in the form, followed by the derivation effect it triggers. */
  function SelectClassificacao(l: Laudo, c: ClassificacaoDanos): (r: Laudo)
    ensures r.classificacao == c
    ensures Consistent(r)
    ensures r.(classificacao := l.classificacao, nivelDestruicao := l.nivelDestruicao,
               percentualDestruicao := l.percentualDestruicao) == l
  {
    ApplyDerivation(l.(classificacao := c))
  }

  /** The derivation table, case by case. */
  lemma DeriveTable()
    ensures Derive(Minimos) == Destruicao("Sem Destruição", "10%")
    ensures Derive(Parciais) == Destruicao("Destruição Parcial Leve", "40%")
    ensures Derive(Severos) == Destruicao("Destruição Parcial Grave", "70%")
    ensures Derive(Ruina) == Destruicao("Destruição Total", "100%")
  {
  }

  /** Distinct classifications get distinct labels and distinct percentages. */
  lemma DeriveInjective(a: ClassificacaoDanos, b: ClassificacaoDanos)
    requires a != b
    ensures Derive(a).nivel != Derive(b).nivel
    ensures Derive(a).percentual != Derive(b).percentual
  {
  }

  /** The percentage grows strictly with the severity order of the classifications. */
  lemma PercentMonotone(a: ClassificacaoDanos, b: ClassificacaoDanos)
    ensures a.Rank() < b.Rank() <==> Percent(a) < Percent(b)
  {
  }

  /** The derivation is a fixpoint: applying it to a consistent report changes nothing, so applying it twice equals applying it once. */
  lemma ApplyDerivationIdempotent(l: Laudo)
    ensures Consistent(l) ==> ApplyDerivation(l) == l
    ensures ApplyDerivation(ApplyDerivation(l)) == ApplyDerivation(l)
  {
  }
}

=== FILE: form.dfy ===
/**
 The form as a whole: the report as it is first created, the user actions that change it,
 and the invariant every reachable state keeps once the classification effect has run
 for the first time: derived fields agree with the classification, damage categories
 are unique, and the coordinates are both set or both unset.
 */
module FormState {
  import opened Types
  import Danos
  import Derivation

  /** The text fields set by plain field assignment in the form. */
  datatype Campo = Municipio | EngenheiroResponsavel | Endereco | InscricaoMunicipal | Proprietario | Requerente

  function Get(l: Laudo, c: Campo): string {
    match c
    case Municipio => l.municipio
    case EngenheiroResponsavel => l.engenheiro
    case Endereco => l.endereco
    case InscricaoMunicipal => l.inscricaoMunicipal
    case Proprietario => l.proprietario
    case Requerente => l.requerente
  }

  /** Assign one text field, leaving the rest of the report alone. */
  function SetCampo(l: Laudo, c: Campo, v: string): (r: Laudo)
    ensures Get(r, c) == v
    ensures forall c': Campo :: c' != c ==> Get(r, c') == Get(l, c')
    ensures r.(municipio := l.municipio, engenheiro := l.engenheiro, endereco := l.endereco,
               inscricaoMunicipal := l.inscricaoMunicipal, proprietario := l.proprietario,
               requerente := l.requerente) == l
  {
    match c
    case Municipio => l.(municipio := v)
    case EngenheiroResponsavel => l.(engenheiro := v)
    case Endereco => l.(endereco := v)
    case InscricaoMunicipal => l.(inscricaoMunicipal := v)
    case Proprietario => l.(proprietario := v)
    case Requerente => l.(requerente := v)
  }

  /** One user action on the form. */
  datatype Acao =
    | ToggleDano(tipo: string)
    | EditDescricao(tipo: string, texto: string)
    | AnexarFotos(tipo: string, fotos: seq<string>)   // photos already encoded
    | RemoverFoto(tipo: string, index: int)
    | Classificar(classificacao: ClassificacaoDanos)
    | Tipificar(tipologia: Tipologia)
    | Preencher(campo: Campo, valor: string)
    | MarcarLocal(latitude: string, longitude: string) // coordinates already formatted

  /** Formatted coordinates are never empty strings. */
  predicate ValidAcao(a: Acao) {
    a.MarcarLocal? ==> a.latitude != "" && a.longitude != ""
  }

  /** The state right after the action (and, for a new classification, its derivation). */
  function Step(l: Laudo, a: Acao): (r: Laudo)
    ensures r.id == l.id && r.data == l.data
    ensures !a.Classificar? ==>
      r.classificacao == l.classificacao
      && r.nivelDestruicao == l.nivelDestruicao
      && r.percentualDestruicao == l.percentualDestruicao
    ensures a.ToggleDano? ==> r == l.(danos := Danos.Toggle(l.danos, a.tipo))
    ensures a.EditDescricao? || a.AnexarFotos? || a.RemoverFoto? ==> r.(danos := l.danos) == l
    ensures a.Classificar? ==> r == Derivation.SelectClassificacao(l, a.classificacao)
    ensures a.Tipificar? ==> r == l.(tipologia := a.tipologia)
    ensures a.Preencher? ==> Get(r, a.campo) == a.valor
    ensures a.Preencher? ==>
      r.(municipio := l.municipio, engenheiro := l.engenheiro, endereco := l.endereco,
         inscricaoMunicipal := l.inscricaoMunicipal, proprietario := l.proprietario,
         requerente := l.requerente) == l
    ensures a.MarcarLocal? ==> r == l.(latitude := a.latitude, longitude := a.longitude)
  {
    match a
    case ToggleDano(t) => l.(danos := Danos.Toggle(l.danos, t))
    case EditDescricao(t, s) => l.(danos := Danos.SetDescricao(l.danos, t, s))
    case AnexarFotos(t, fs) => l.(danos := Danos.AddFotos(l.danos, t, fs))
    case RemoverFoto(t, i) => l.(danos := Danos.RemoveFoto(l.danos, t, i))
    case Classificar(c) => Derivation.SelectClassificacao(l, c)
    case Tipificar(t) => l.(tipologia := t)
    case Preencher(c, v) => SetCampo(l, c, v)
    case MarcarLocal(lat, lng) => l.(latitude := lat, longitude := lng)
  }

  /** A session's actions applied in order. */
  function Run(l: Laudo, acoes: seq<Acao>): (r: Laudo)
    ensures r.id == l.id && r.data == l.data
    ensures (forall i :: 0 <= i < |acoes| ==> !acoes[i].Classificar?) ==>
      r.classificacao == l.classificacao
      && r.nivelDestruicao == l.nivelDestruicao
      && r.percentualDestruicao == l.percentualDestruicao
    decreases |acoes|
  {
    if |acoes| == 0 then l else Run(Step(l, acoes[0]), acoes[1..])
  }

  /**
   The report as the form creates it: numbered from the running counter, dated by the
   caller, with the default municipality, engineer, typology and classification. The
   derived fields are still unset until the classification effect first runs.
   */
  function Initial(id: int, data: string): (l: Laudo)
    ensures l.id == id && l.danos == [] && l.classificacao == Minimos
    ensures l.data == data && l.municipio == "Rio Bonito do Iguaçu" && l.engenheiro == "Daniel"
    ensures l.tipologia == Alvenaria && l.latitude == "" && l.longitude == "" && l.endereco == ""
    ensures l.proprietario == "" && l.inscricaoMunicipal == "" && l.requerente == "" && l.tipologiaOutro == None
    ensures l.nivelDestruicao == "" && l.percentualDestruicao == ""
    ensures !Derivation.Consistent(l)
  {
    Laudo(id, "Rio Bonito do Iguaçu", data, "Daniel", "", "", "", "", "", "",
          Alvenaria, None, [], Minimos, "", "")
  }

  /** The classification effect's first run, after the first render. */
  function Mount(l: Laudo): (r: Laudo)
    ensures Derivation.Consistent(r)
    ensures r.(nivelDestruicao := l.nivelDestruicao, percentualDestruicao := l.percentualDestruicao) == l
  {
    Derivation.ApplyDerivation(l)
  }

  /** The invariant of every state the form reaches after mounting. */
  predicate WellFormed(l: Laudo) {
    && Derivation.Consistent(l)
    && Danos.UniqueTipos(l.danos)
    && (l.latitude == "" <==> l.longitude == "")
  }

  lemma MountedInitialWellFormed(id: int, data: string)
    ensures WellFormed(Mount(Initial(id, data)))
    ensures Mount(Initial(id, data)).nivelDestruicao == "Sem Destruição"
    ensures Mount(Initial(id, data)).percentualDestruicao == "10%"
  {
  }

  /** Every valid action keeps the invariant. */
  lemma StepPreservesWellFormed(l: Laudo, a: Acao)
    requires WellFormed(l)
    requires ValidAcao(a)
    ensures WellFormed(Step(l, a))
  {
    match a
    case ToggleDano(t) =>
      Danos.ToggleKeepsUnique(l.danos, t);
    case EditDescricao(t, s) =>
      Danos.SetDescricaoLookup(l.danos, t, s, t);
      Danos.SameTiposKeys(Danos.SetDescricao(l.danos, t, s), l.danos, t);
    case AnexarFotos(t, fs) =>
      Danos.AddFotosLookup(l.danos, t, fs, t);
      Danos.SameTiposKeys(Danos.AddFotos(l.danos, t, fs), l.danos, t);
    case RemoverFoto(t, i) =>
      Danos.RemoveFotoLookup(l.danos, t, i, t);
      Danos.SameTiposKeys(Danos.RemoveFoto(l.danos, t, i), l.danos, t);
    case Classificar(c) =>
    case Tipificar(t) =>
    case Preencher(c, v) =>
    case MarcarLocal(lat, lng) =>
  }

  /** A whole session of valid actions keeps the invariant. */
  lemma {:induction false} RunPreservesWellFormed(l: Laudo, acoes: seq<Acao>)
    requires WellFormed(l)
    requires forall i :: 0 <= i < |acoes| ==> ValidAcao(acoes[i])
    ensures WellFormed(Run(l, acoes))
    decreases |acoes|
  {
    if |acoes| > 0 {
      StepPreservesWellFormed(l, acoes[0]);
      RunPreservesWellFormed(Step(l, acoes[0]), acoes[1..]);
    }
  }
}

=== FILE: template.dfy ===
/**
 The printable report: a pure projection of the report record onto the fixed letterhead
 layout, later rasterised for the PDF. Only the text content is modelled: the control
 line, the metadata block, one block per damage entry (with a placeholder when the entry
 has no description, and a single notice when there are no entries), the conclusion and
 the signature. The year of the control line is read from the clock in the program and
 is a parameter here.
 */
module Template {
  import opened Types
  import opened Text
  import Derivation
  import Danos

  const SemObservacoes: string := "Sem observações detalhadas."
  const NenhumDano: string := "Nenhum dano registrado."
  const NaoInformado: string := "N/A"
  const ControlePrefix: string := "CONTROLE Nº "

  /** One paragraph of the damage section. */
  datatype Bloco =
    | Avaria(titulo: string, texto: string)  // a damage entry: category heading and its text
    | Aviso(texto: string)                   // the notice shown when there are no entries

  /** The text content of the printable report, field by field as laid out on the page. */
  datatype Documento = Documento(
    controle: string,
    municipio: string,
    data: string,
    proprietario: string,
    tipologia: string,
    coordenadas: string,
    engenheiro: string,
    inscricaoMunicipal: string,
    localizacao: string,
    avarias: seq<Bloco>,
    classificacao: string,
    nivel: string,
    assinatura: string
  )

  /** The control number: the id in decimal, left-padded with '0' to four characters. */
  function ControlNumber(id: int): (r: string)
    ensures |r| == if |IntToString(id)| >= 4 then |IntToString(id)| else 4
    ensures r[|r| - |IntToString(id)|..] == IntToString(id)
    ensures forall i :: 0 <= i < |r| - |IntToString(id)| ==> r[i] == '0'
  {
    PadStart(IntToString(id), 4, '0')
  }

  /** The line under the title: control number and year. */
  function ControlLine(id: int, year: int): (r: string)
    ensures |r| > |ControlePrefix| + |ControlNumber(id)|
    ensures r[..|ControlePrefix|] == ControlePrefix
    ensures r[|ControlePrefix|..|ControlePrefix| + |ControlNumber(id)|] == ControlNumber(id)
  {
    ControlePrefix + ControlNumber(id) + " - ANO " + IntToString(year)
  }

  /** The text printed under a damage heading. */
  function DescricaoText(descricao: string): (r: string)
    ensures r != ""
    ensures descricao != "" ==> r == descricao
    ensures descricao == "" ==> r == SemObservacoes
  {
    OrElse(descricao, SemObservacoes)
  }

  /** The damage section: one block per entry in list order, then the notice if the list is empty. */
  function AvariaBlocks(danos: seq<DanoSelecionado>): (r: seq<Bloco>)
    ensures |danos| == 0 ==> r == [Aviso(NenhumDano)]
    ensures |danos| > 0 ==> |r| == |danos|
    ensures |danos| > 0 ==> forall i :: 0 <= i < |danos| ==>
      r[i].Avaria? && r[i].titulo == danos[i].tipo && r[i].texto == DescricaoText(danos[i].descricao)
  {
    seq(|danos|, i requires 0 <= i < |danos| => Avaria(danos[i].tipo, DescricaoText(danos[i].descricao)))
      + (if |danos| == 0 then [Aviso(NenhumDano)] else [])
  }

  /** Lay the report out on the page. */
  function Compose(l: Laudo, year: int): (doc: Documento)
    ensures doc.controle == ControlLine(l.id, year)
    ensures doc.municipio == l.municipio && doc.data == l.data && doc.localizacao == l.endereco
    ensures doc.tipologia == l.tipologia.Display()
    ensures doc.coordenadas == l.latitude + ", " + l.longitude
    ensures l.proprietario == "" ==> doc.proprietario == NaoInformado
    ensures l.proprietario != "" ==> doc.proprietario == l.proprietario
    ensures l.inscricaoMunicipal == "" ==> doc.inscricaoMunicipal == NaoInformado
    ensures l.inscricaoMunicipal != "" ==> doc.inscricaoMunicipal == l.inscricaoMunicipal
    ensures doc.avarias == AvariaBlocks(l.danos)
    ensures doc.nivel == l.nivelDestruicao
    ensures doc.classificacao == l.classificacao.Display()
    ensures doc.assinatura == doc.engenheiro == l.engenheiro
  {
    Documento(
      ControlLine(l.id, year),
      l.municipio,
      l.data,
      OrElse(l.proprietario, NaoInformado),
      l.tipologia.Display(),
      l.latitude + ", " + l.longitude,
      l.engenheiro,
      OrElse(l.inscricaoMunicipal, NaoInformado),
      l.endereco,
      AvariaBlocks(l.danos),
      l.classificacao.Display(),
      l.nivelDestruicao,
      l.engenheiro)
  }

  // ---------------------------------------------------------------------------
  // Control number
  // ---------------------------------------------------------------------------

  /** The control number of a non-negative id is a digit string that reads back as the id. */
  lemma ControlNumberRoundTrip(id: nat)
    ensures AllDigits(ControlNumber(id))
    ensures DigitsValue(ControlNumber(id)) == id
  {
    var d := Decimal(id);
    if |d| < 4 {
      assert ControlNumber(id) == Repeat('0', 4 - |d|) + d;
      LeadingZerosValue(4 - |d|, d);
    }
    DecimalRoundTrip(id);
  }

  /** Ids below 10000 get exactly four characters; ids of four or more digits are printed unpadded. */
  lemma ControlNumberWidth(id: nat)
    ensures id < 10000 ==> |ControlNumber(id)| == 4
    ensures id >= 1000 ==> ControlNumber(id) == Decimal(id)
  {
    DecimalLength(id, 4);
    DecimalLength(id, 3);
  }

  /** Distinct ids get distinct control numbers. */
  lemma ControlNumberInjective(a: int, b: int)
    requires ControlNumber(a) == ControlNumber(b)
    ensures a == b
  {
    var sa, sb := IntToString(a), IntToString(b);
    var c := ControlNumber(a);
    if |sa| < |sb| {
      // the shorter rendering is padded: the longer one would have a '0' where it starts
      assert |sb| > 4 ==> |c| == |sb|;
      PaddedMismatch(a, b);
    } else if |sb| < |sa| {
      PaddedMismatch(b, a);
    } else {
      assert sa == c[|c| - |sa|..] == sb;
      IntToStringInjective(a, b);
    }
  }

  /** A rendering shorter than another never pads to the same control number. */
  lemma PaddedMismatch(a: int, b: int)
    requires |IntToString(a)| < |IntToString(b)|
    ensures ControlNumber(a) != ControlNumber(b)
  {
    var sa, sb := IntToString(a), IntToString(b);
    var ca, cb := ControlNumber(a), ControlNumber(b);
    if |ca| == |cb| {
      var k := |cb| - |sb|;
      assert ca[k] == '0';
      assert cb[k..] == sb;
      assert cb[k] == sb[0];
      assert sb[0] != '0' by {
        if b >= 0 {
          assert |sb| >= 2 && sb == Decimal(b);
        }
      }
    }
  }

  /** After the control number, the line closes with the year. */
  lemma ControlLineYear(id: int, year: int)
    ensures ControlLine(id, year)[|ControlePrefix| + |ControlNumber(id)|..] == " - ANO " + IntToString(year)
  {
    var a := ControlePrefix + ControlNumber(id);
    var b := " - ANO " + IntToString(year);
    assert ControlLine(id, year) == a + b;
    assert |a| == |ControlePrefix| + |ControlNumber(id)|;
    assert (a + b)[|a|..] == b;
  }

  /** The worked example of the whole line. */
  lemma ControlLineExample()
    ensures ControlLine(7, 2025) == "CONTROLE Nº 0007 - ANO 2025"
  {
    var n, y := ControlNumber(7), IntToString(2025);
    assert n == "0007" by { ControlNumberSeven(); }
    assert y == "2025" by { assert Decimal(2025) == "2025"; }
    assert ControlLine(7, 2025) == ControlePrefix + n + " - ANO " + y;
  }

  /** The worked example: id 7 is printed as 0007. */
  lemma ControlNumberSeven()
    ensures ControlNumber(7) == "0007"
    ensures ControlNumber(12345) == "12345"
  {
    assert Decimal(7) == "7";
    assert Decimal(12345) == "12345";
  }

  // ---------------------------------------------------------------------------
  // Damage section and document
  // ---------------------------------------------------------------------------

  /** The notice appears exactly when the list is empty, and every block has text to print. */
  lemma AvariaBlocksShape(danos: seq<DanoSelecionado>)
    ensures |AvariaBlocks(danos)| >= 1
    ensures Aviso(NenhumDano) in AvariaBlocks(danos) <==> |danos| == 0
    ensures forall b :: b in AvariaBlocks(danos) ==> b.texto != ""
  {
    var r := AvariaBlocks(danos);
    if |danos| > 0 {
      forall b | b in r ensures b.Avaria? && b.texto != "" {
        var i :| 0 <= i < |r| && r[i] == b;
      }
    }
  }

  /** Photos never reach the printed report: adding or removing one leaves the document unchanged. */
  lemma PhotosNotPrinted(l: Laudo, year: int, tipo: string, novas: seq<string>, index: int)
    ensures Compose(l.(danos := Danos.AddFotos(l.danos, tipo, novas)), year) == Compose(l, year)
    ensures Compose(l.(danos := Danos.RemoveFoto(l.danos, tipo, index)), year) == Compose(l, year)
  {
    var added := Danos.AddFotos(l.danos, tipo, novas);
    var removed := Danos.RemoveFoto(l.danos, tipo, index);
    assert AvariaBlocks(added) == AvariaBlocks(l.danos) by {
      if |l.danos| > 0 {
        assert forall i :: 0 <= i < |l.danos| ==> AvariaBlocks(added)[i] == AvariaBlocks(l.danos)[i];
      }
    }
    assert AvariaBlocks(removed) == AvariaBlocks(l.danos) by {
      if |l.danos| > 0 {
        assert forall i :: 0 <= i < |l.danos| ==> AvariaBlocks(removed)[i] == AvariaBlocks(l.danos)[i];
      }
    }
  }

  /** The printed report shows the derived level but neither the percentage nor the requester. */
  lemma PrintedConclusion(l: Laudo, year: int, percentual: string, requerente: string)
    ensures Derivation.Consistent(l) ==> Compose(l, year).nivel == Derivation.Derive(l.classificacao).nivel
    ensures Compose(l.(percentualDestruicao := percentual, requerente := requerente), year) == Compose(l, year)
  {
  }
}

=== FILE: text.dfy ===
/**
 The JavaScript string operations the report template relies on: `String(n)` of an
 integral number, `padStart` with a one-character pad, and `a || b` on strings
 (the empty string is falsy). `DigitsValue` reads a digit string back as a number
 and is the reference the decimal rendering is checked against.
 */
module Text {

  predicate IsDigit(c: char) {
    '0' <= c <= '9'
  }

  predicate AllDigits(s: string) {
    forall i :: 0 <= i < |s| ==> IsDigit(s[i])
  }

  function DigitChar(d: nat): (c: char)
    requires d < 10
    ensures IsDigit(c)
    ensures c as int - '0' as int == d
  {
    (d + '0' as int) as char
  }

  /** The number a string of decimal digits denotes; leading zeros are allowed. */
  function DigitsValue(s: string): nat
    requires AllDigits(s)
  {
    if |s| == 0 then 0
    else DigitsValue(s[..|s| - 1]) * 10 + (s[|s| - 1] as int - '0' as int)
  }

  /** `String(n)` for a non-negative integer: shortest decimal, no leading zero. */
  function Decimal(n: nat): (s: string)
    ensures 1 <= |s|
    ensures AllDigits(s)
    ensures |s| > 1 ==> s[0] != '0'
  {
    if n < 10 then [DigitChar(n)] else Decimal(n / 10) + [DigitChar(n % 10)]
  }

  /** `String(i)` for an integer: a minus sign, then the decimal digits of its magnitude. */
  function IntToString(i: int): (s: string)
    ensures 1 <= |s|
    ensures i >= 0 ==> AllDigits(s)
    ensures i < 0 ==> |s| >= 2 && s[0] == '-' && AllDigits(s[1..])
  {
    if i < 0 then "-" + Decimal(-i) else Decimal(i)
  }

  /** `s.padStart(width, [pad])`: pad characters in front until the length reaches `width`. */
  function PadStart(s: string, width: int, pad: char): (r: string)
    ensures |r| == if |s| >= width then |s| else width
    ensures r[|r| - |s|..] == s
    ensures forall i :: 0 <= i < |r| - |s| ==> r[i] == pad
  {
    if |s| >= width then s else Repeat(pad, width - |s|) + s
  }

  function Repeat(c: char, n: nat): (r: string)
    ensures |r| == n
    ensures forall i :: 0 <= i < n ==> r[i] == c
  {
    if n == 0 then [] else [c] + Repeat(c, n - 1)
  }

  /** `s || fallback` on strings: the fallback replaces exactly the empty string. */
  function OrElse(s: string, fallback: string): (r: string)
    ensures s != "" ==> r == s
    ensures s == "" ==> r == fallback
  {
    if s != "" then s else fallback
  }

  function Pow10(k: nat): (p: nat)
    ensures p >= 1
    ensures k >= 1 ==> p >= 10
  {
    if k == 0 then 1 else 10 * Pow10(k - 1)
  }

  /** The decimal rendering of `n` fits in `k` characters exactly when `n < 10^k`. */
  lemma {:induction false} DecimalLength(n: nat, k: nat)
    requires k >= 1
    ensures |Decimal(n)| <= k <==> n < Pow10(k)
  {
    if n >= 10 {
      assert |Decimal(n)| == |Decimal(n / 10)| + 1;
      if k > 1 {
        DecimalLength(n / 10, k - 1);
        var p := Pow10(k - 1);
        assert n == 10 * (n / 10) + n % 10;
        assert n / 10 < p <==> n < 10 * p;
      }
    }
  }

  /** Reading back the decimal rendering of `n` gives `n`. */
  lemma {:induction false} DecimalRoundTrip(n: nat)
    ensures DigitsValue(Decimal(n)) == n
  {
    if n >= 10 {
      var a := Decimal(n / 10);
      var s := a + [DigitChar(n % 10)];
      assert s[..|s| - 1] == a;
      DecimalRoundTrip(n / 10);
    }
  }

  /** Leading zeros do not change the value of a digit string. */
  lemma {:induction false} LeadingZerosValue(k: nat, s: string)
    requires AllDigits(s)
    ensures AllDigits(Repeat('0', k) + s)
    ensures DigitsValue(Repeat('0', k) + s) == DigitsValue(s)
  {
    var z := Repeat('0', k);
    if |s| == 0 {
      assert z + s == z;
      ZerosValue(k);
    } else {
      var t := s[..|s| - 1];
      assert (z + s)[..|z + s| - 1] == z + t;
      LeadingZerosValue(k, t);
    }
  }

  /** A string of zeros denotes zero. */
  lemma {:induction false} ZerosValue(k: nat)
    ensures AllDigits(Repeat('0', k))
    ensures DigitsValue(Repeat('0', k)) == 0
  {
    if k > 0 {
      var z := Repeat('0', k);
      assert z[..k - 1] == Repeat('0', k - 1);
      ZerosValue(k - 1);
    }
  }

  /** Distinct numbers render as distinct strings. */
  lemma IntToStringInjective(i: int, j: int)
    requires IntToString(i) == IntToString(j)
    ensures i == j
  {
    if i >= 0 && j >= 0 {
      DecimalRoundTrip(i);
      DecimalRoundTrip(j);
    } else if i < 0 && j < 0 {
      assert IntToString(i)[1..] == Decimal(-i);
      assert IntToString(j)[1..] == Decimal(-j);
      DecimalRoundTrip(-i);
      DecimalRoundTrip(-j);
    }
  }
}

=== FILE: types.dfy ===
/**
 The record types of a damage-inspection report ("laudo"): the building typology and
 damage-classification enumerations, the engineer of record, one damage entry, and the
 report itself. The two enumerations are string enums in the program: each case IS its
 display string, and the form's drop-downs cast the selected string back to the enum.
 Here each case is a constructor, `Display` gives its string, and `FromDisplay` is the cast.
 */
module Types {

  datatype Option<+T> = None | Some(value: T)

  /** Building typology; nine cases, in declaration order. */
  datatype Tipologia =
    | Alvenaria
    | Madeira
    | Mista
    | Loja
    | PredioComercial
    | PavilhaoComercial
    | PavilhaoIndustrial
    | EquipamentoPublico
    | Outro
  {
    function Display(): string {
      match this
      case Alvenaria => "Casa de Alvenaria"
      case Madeira => "Casa de Madeira"
      case Mista => "Casa Mista"
      case Loja => "Loja Comercial"
      case PredioComercial => "Prédio Comercial"
      case PavilhaoComercial => "Pavilhão Comercial"
      case PavilhaoIndustrial => "Pavilhão Industrial"
      case EquipamentoPublico => "Equipamento Público"
      case Outro => "Outro"
    }
  }

  /** Every typology, in declaration order (what the typology drop-down lists). */
  const AllTipologias: seq<Tipologia> :=
    [Alvenaria, Madeira, Mista, Loja, PredioComercial, PavilhaoComercial,
     PavilhaoIndustrial, EquipamentoPublico, Outro]

  /** Damage classification; four cases, from least to most severe. */
  datatype ClassificacaoDanos = Minimos | Parciais | Severos | Ruina
  {
    function Display(): string {
      match this
      case Minimos => "Danos Mínimos"
      case Parciais => "Danos Parciais"
      case Severos => "Danos Severos"
      case Ruina => "Ruína"
    }

    /** Position in declaration order, which is also increasing severity. */
    function Rank(): nat {
      match this
      case Minimos => 0
      case Parciais => 1
      case Severos => 2
      case Ruina => 3
    }
  }

  /** Every classification, in declaration order (what the classification drop-down lists). */
  const AllClassificacoes: seq<ClassificacaoDanos> := [Minimos, Parciais, Severos, Ruina]

  /** An engineer of record. */
  datatype Engenheiro = Engenheiro(nome: string, crea: string, endereco: string, telefone: string)

  /** One selected damage category with its notes and its photos (encoded images, opaque here). */
  datatype DanoSelecionado = DanoSelecionado(tipo: string, descricao: string, fotos: seq<string>)

  /**
   The report under construction. Text fields the form has not set yet are "" (the program
   keeps them undefined; every reader treats the two alike). `nivelDestruicao` and
   `percentualDestruicao` are derived from `classificacao`.
   */
  datatype Laudo = Laudo(
    id: int,
    municipio: string,
    data: string,
    engenheiro: string,
    inscricaoMunicipal: string,
    proprietario: string,
    requerente: string,
    endereco: string,
    latitude: string,
    longitude: string,
    tipologia: Tipologia,
    tipologiaOutro: Option<string>,
    danos: seq<DanoSelecionado>,
    classificacao: ClassificacaoDanos,
    nivelDestruicao: string,
    percentualDestruicao: string
  )

  /** The drop-down's cast of a selected string back to a typology. */
  function TipologiaFromDisplay(s: string): (r: Option<Tipologia>)
    ensures forall t: Tipologia :: r == Some(t) <==> t.Display() == s
  {
    if s == Alvenaria.Display() then Some(Alvenaria)
    else if s == Madeira.Display() then Some(Madeira)
    else if s == Mista.Display() then Some(Mista)
    else if s == Loja.Display() then Some(Loja)
    else if s == PredioComercial.Display() then Some(PredioComercial)
    else if s == PavilhaoComercial.Display() then Some(PavilhaoComercial)
    else if s == PavilhaoIndustrial.Display() then Some(PavilhaoIndustrial)
    else if s == EquipamentoPublico.Display() then Some(EquipamentoPublico)
    else if s == Outro.Display() then Some(Outro)
    else None
  }

  /** The drop-down's cast of a selected string back to a classification. */
  function ClassificacaoFromDisplay(s: string): (r: Option<ClassificacaoDanos>)
    ensures forall c: ClassificacaoDanos :: r == Some(c) <==> c.Display() == s
  {
    if s == Minimos.Display() then Some(Minimos)
    else if s == Parciais.Display() then Some(Parciais)
    else if s == Severos.Display() then Some(Severos)
    else if s == Ruina.Display() then Some(Ruina)
    else None
  }

  /** The nine typologies are listed once each and their display strings are pairwise distinct. */
  lemma TipologiasEnumerated()
    ensures |AllTipologias| == 9
    ensures forall t: Tipologia :: t in AllTipologias
    ensures forall i, j :: 0 <= i < j < |AllTipologias| ==>
      AllTipologias[i].Display() != AllTipologias[j].Display()
  {
    forall t: Tipologia ensures t in AllTipologias {
      match t
      case Alvenaria => assert AllTipologias[0] == t;
      case Madeira => assert AllTipologias[1] == t;
      case Mista => assert AllTipologias[2] == t;
      case Loja => assert AllTipologias[3] == t;
      case PredioComercial => assert AllTipologias[4] == t;
      case PavilhaoComercial => assert AllTipologias[5] == t;
      case PavilhaoIndustrial => assert AllTipologias[6] == t;
      case EquipamentoPublico => assert AllTipologias[7] == t;
      case Outro => assert AllTipologias[8] == t;
    }
  }

  /** The four classifications are listed once each, in rank order, with pairwise distinct display strings. */
  lemma ClassificacoesEnumerated()
    ensures |AllClassificacoes| == 4
    ensures forall c: ClassificacaoDanos :: c in AllClassificacoes
    ensures forall i :: 0 <= i < |AllClassificacoes| ==> AllClassificacoes[i].Rank() == i
    ensures forall i, j :: 0 <= i < j < |AllClassificacoes| ==>
      AllClassificacoes[i].Display() != AllClassificacoes[j].Display()
  {
    forall c: ClassificacaoDanos ensures c in AllClassificacoes {
      assert AllClassificacoes[c.Rank()] == c;
    }
  }

  /** Casting a listed option's string back gives that option again (both enumerations). */
  lemma DisplayRoundTrip(t: Tipologia, c: ClassificacaoDanos)
    ensures TipologiaFromDisplay(t.Display()) == Some(t)
    ensures ClassificacaoFromDisplay(c.Display()) == Some(c)
  {
  }
}
